=== FILE: README.md ===
# SafeSpeak moderation pipeline in Dafny

SafeSpeak checks a chat message before it is sent. The message is scored by
a toxicity classifier. The classifier's label scores are folded into one
toxicity probability, which gives an integer severity (0-100) and a
category: `clean`, `mild`, `toxic` or `severe`, plus `error` when the
classifier call fails. A decision engine maps the severity to an action:
`allow`, `warn`, `block_and_rewrite` or `block_and_alert`. It also keeps an
in-memory ledger of offences per user, and a user's fourth offence or later
is escalated to `block_and_alert`. When the action is not `allow`, a
generative model proposes a polite rewrite. In the service layer its answer
is cleaned up (prefixes and surrounding quotes removed, a fixed sentence on
failure); the single-file server returns the rewriter's answer as is, or the
original message when the rewriter raises.

The repository has two generations of this pipeline and an older analyzer, and all are modelled:

- **Service layer** (`backend/app/...`):
  - `ToxicityService.analyze`, modelled as `ToxicityService`.
  - `DecisionService`, modelled as `DecisionEngine`.
  - `RewriterService.rewrite`, modelled as `RewriterService`.
  - The `/analyze` route, modelled as `Routes`.
- **Single-file server** (`backend/main.py`):
  - Its `/analyze` handler and model loading, modelled as `MainApp`.
  - The local two-pass analyzer `backend/analyzer.py`, modelled as `Analyzer`.
  - The module-level decision engine of `backend/legacy/decision_engine.py`,
    modelled as `LegacyDecisionEngine`. It stands in for the server's own
    import, `backend/decision_engine.py`, which is not part of this model.
- **Older Inference-API analyzer** (`backend/legacy/analyzer.py`): neither
  server imports it (the single-file server imports `backend/analyzer.py`).
  It is modelled on its own as `LegacyAnalyzer` and compared with the service
  fold by `LegacyAnalyzer.AgreesWithService`.

Shared pieces:

- `Types`: the categories, the actions and the analysis records.
- `Text`: Python's `strip`, ASCII lower-casing and `join`.
- `Normalizer`: the label fold, the truncating severity and the 20/40/80
  banding.
- `Ledger`: the offence ledger as a map from user id to timestamps.

How the model is built:

- Each routine that works step by step is a `method` whose loop or
  if-chain follows the source. Its `ensures` ties its result to a
  specification function. The lemmas beside that function state what the
  code promises.
- The two decision engines are classes. Each holds its offence ledger as a
  `map` field that `Decide` / `DecideAction` update in place.
- The classifier and the rewrite model are function parameters:
  - a classifier call that raises is `None`;
  - a rewrite call that raises is `Raised` in the service layer and `None`
    in the single-file server.
- The clock is a `Timestamp` parameter.

## Model

| member | source | states |
|---|---|---|
| Normalizer.FoldToxicScore | backend/app/services/toxicity_service.py:30-43 | the label loop returns the fold's score: `toxic` assigns, `neutral` is skipped, any other label above 0.5 raises the running maximum |
| Normalizer.ToxicScoreIsFoldResult | backend/app/services/toxicity_service.py:30-43 | the score is the maximum of the last `toxic` entry's score (0.0 without one) and the scores of the later other-label entries above 0.5 |
| Normalizer.IgnoredEntriesDoNotMatter | backend/app/services/toxicity_service.py:39-43 | `neutral` entries and other-label entries at or below 0.5 never change the score |
| Normalizer.ToxicScoreBounds | backend/app/services/toxicity_service.py:30-43 | with every score a probability, the fold's score is a probability |
| Normalizer.ToxicScoreOrderMatters | backend/app/services/toxicity_service.py:37-38 | a later `toxic` entry overwrites an earlier higher `insult` score, so the order of the entries changes the score |
| Normalizer.Severity | backend/app/services/toxicity_service.py:45 | severity is `int(p * 100)`, truncated toward zero; for a probability it lies in 0..100 |
| Normalizer.CategorizeMonotone | backend/app/services/toxicity_service.py:47-54 | the banding never gives a lower category to a higher severity and never gives `error` |
| Normalizer.CategorizeBoundaries | backend/app/services/toxicity_service.py:47-54 | 20, 40 and 80 each belong to the band above them |
| ToxicityService.Analyze | backend/app/services/toxicity_service.py:18-60 | `analyze` returns the analysis defined from the text and the classifier's reply |
| ToxicityService.BlankTextIsClean | backend/app/services/toxicity_service.py:19-20 | blank or whitespace-only text is `clean` with score 0.0 and severity 0, whatever the classifier would say |
| ToxicityService.ClassifierFailureIsError | backend/app/services/toxicity_service.py:26-28 | a classifier call that raises gives `error`, score 0.0, severity 0 |
| ToxicityService.AnalysisInRange | backend/app/services/toxicity_service.py:30-54 | with probability scores, the score is a probability, the severity is in 0..100 and the category is its band |
| ToxicityService.EmptyOutputIsClean | backend/app/services/toxicity_service.py:30-54 | an empty classifier reply is `clean`, 0.0, 0 |
| ToxicityService.SevereExample | backend/app/services/toxicity_service.py:30-54 | `[neutral 0.1, toxic 0.85]` gives `severe`, 0.85, 85 |
| Ledger.Register | backend/app/services/decision_engine.py:45-48 | registering creates the user's list if missing, appends the timestamp, and leaves every other user's list as it was |
| Ledger.CountAfterRegister | backend/app/services/decision_engine.py:45-51 | registering raises the user's count by one and no other user's count |
| Ledger.CountUnseen | backend/app/services/decision_engine.py:50-51 | a user with no entry has count 0 |
| Ledger.RegisterAppendOnly | backend/app/services/decision_engine.py:45-48 | the ledger only grows: every earlier timestamp stays, in order |
| DecisionEngine.DecisionService.constructor | backend/app/services/decision_engine.py:7-9 | a new service starts with an empty ledger |
| DecisionEngine.DecisionService.Decide | backend/app/services/decision_engine.py:12-43 | `decide` returns the base action for the severity, escalated from the fourth offence on, and registers an offence exactly when severity is 40 or more |
| DecisionEngine.DecisionService.RegisterOffence | backend/app/services/decision_engine.py:45-48 | `_register_offence` appends one timestamp to the user's list |
| DecisionEngine.DecisionService.GetOffenceCount | backend/app/services/decision_engine.py:50-51 | `_get_offence_count` is the length of the user's list, 0 when absent |
| DecisionEngine.FourthOffenceEscalates | backend/app/services/decision_engine.py:34-41 | on a fresh service, four offences with severity 40..70 give three `block_and_rewrite` and then an escalated `block_and_alert` |
| DecisionEngine.BaseReasonsUnescalated | backend/app/services/decision_engine.py:20-32 | no reason from the base table ends with the escalation suffix |
| DecisionEngine.BaseDecisionMonotone | backend/app/services/decision_engine.py:20-32 | a higher severity never gets a milder base action |
| DecisionEngine.EscalationIff | backend/app/services/decision_engine.py:34-41 | a decision is escalated iff severity is 40 or more, the user already had 3 or more offences, and the base action was `block_and_rewrite` |
| DecisionEngine.EscalationNeverDowngrades | backend/app/services/decision_engine.py:34-41 | escalation never gives a milder action than the base table |
| DecisionEngine.OutcomeMonotoneInHistory | backend/app/services/decision_engine.py:34-41 | a longer offence history never softens the action |
| DecisionEngine.ErrorAnalysisAllowed | backend/app/services/decision_engine.py:16-23 | the label is not read: a failed analysis (severity 0) is allowed as clean and records nothing |
| LegacyDecisionEngine.DecisionModule.constructor | backend/legacy/decision_engine.py:6 | the module starts with an empty ledger |
| LegacyDecisionEngine.DecisionModule.DecideAction | backend/legacy/decision_engine.py:8-57 | `decide_action` blocks an `error` analysis with an alert and the system-error reason, otherwise decides like the service engine on the severity (0 when missing) |
| LegacyDecisionEngine.DecisionModule.RegisterOffence | backend/legacy/decision_engine.py:59-63 | `register_offence` appends one timestamp to the user's list |
| LegacyDecisionEngine.DecisionModule.GetOffenceCount | backend/legacy/decision_engine.py:65-67 | `get_offence_count` is the length of the user's list, 0 when absent |
| LegacyDecisionEngine.ErrorFailsClosed | backend/legacy/decision_engine.py:25-29 | an `error` analysis is `block_and_alert` with the system-error reason and records no offence |
| LegacyDecisionEngine.MissingSeverityAllows | backend/legacy/decision_engine.py:20 | a non-error analysis without a severity is allowed as clean and records nothing |
| LegacyDecisionEngine.EnginesDifferOnlyOnError | backend/legacy/decision_engine.py:24-52 | apart from the `error` label, the module engine decides exactly as the service engine |
| LegacyAnalyzer.AnalyzeText | backend/legacy/analyzer.py:21-86 | `analyze_text` returns the report defined from the text and the classifier's reply |
| LegacyAnalyzer.BlankTextIsEmpty | backend/legacy/analyzer.py:25-31 | blank text is `clean`, 0, 0.0, "Message is empty.", whatever the classifier would say |
| LegacyAnalyzer.ClassifierFailureIsError | backend/legacy/analyzer.py:37-45 | a failed call is `error`, 0, 0.0 with the API error explanation |
| LegacyAnalyzer.AgreesWithService | backend/legacy/analyzer.py:47-79 | category, severity and confidence equal the service analysis's category, severity and score on every input |
| LegacyAnalyzer.ExplanationThreshold | backend/legacy/analyzer.py:67-69 | the explanation is the toxic one iff severity is 10 or more, and the safe one iff it is below 10 |
| Analyzer.FirstPass | backend/analyzer.py:72-97 | the first loop ends in the state of the first-pass fold, whose meaning `FirstPassMaximum` and `FirstPassToxicScore` state |
| Analyzer.FirstPassMaximum | backend/analyzer.py:72-86 | every score is at most `max_score`, which is never negative; it stays 0 with label `neutral` when no score is positive, and otherwise it is the first entry that reaches the maximum (strict `>` keeps the earliest) |
| Analyzer.FirstPassToxicScore | backend/analyzer.py:88-97 | `toxic_score` is at least the last `toxic` score (0.0 when none) and at least every later contribution (`severe_toxic` boosted by 1.2 with no threshold, other non-`neutral` labels above 0.5), and it equals one of these |
| Analyzer.SecondPass | backend/analyzer.py:106-116 | the second loop computes the final probability and the detected labels of the second-pass definitions |
| Analyzer.AnalyzeText | backend/analyzer.py:19-149 | `analyze_text` returns the report defined from the text and the classifier's reply |
| Analyzer.CountedIff | backend/analyzer.py:109-116 | an entry counts toward the final probability iff its label is neither `neutral` nor `clean` |
| Analyzer.FinalToxicProbIsMax | backend/analyzer.py:106-116 | the final probability is 0.0 or the score of a counted entry, and is at least every counted entry's score |
| Analyzer.FinalToxicProbOrderFree | backend/analyzer.py:106-116 | the final probability depends only on the multiset of entries, not their order |
| Analyzer.DetectedCategoriesAppend | backend/analyzer.py:110-112 | detected labels of a concatenation are the concatenation of detected labels |
| Analyzer.DetectedCategoriesMembers | backend/analyzer.py:110-112 | a label is detected iff some entry carries it, it is not `neutral`, and its score is above 0.5 |
| Analyzer.ReportInRange | backend/analyzer.py:106-142 | with probability scores, confidence is a probability, severity is in 0..100 and the category is its band |
| Analyzer.ExplanationCases | backend/analyzer.py:126-132 | for a scored message the explanation is the safe one iff severity is below 10, the generic toxic one iff severity is 10 or more and no non-`neutral` label scores above 0.5, and otherwise "Message contains: " with the detected labels joined by ", " |
| Analyzer.BlankTextIsEmpty | backend/analyzer.py:24-30 | blank text is `clean`, 0, 0.0, "Message is empty.", whatever the classifier would say |
| Analyzer.ClassifierFailureIsError | backend/analyzer.py:32-41 | a pipeline call that raises gives `error`, 0, 0.0, "Error processing message." |
| Analyzer.BoostIsDropped | backend/analyzer.py:89-120 | the first pass's 1.2 boost never reaches the result: `[severe_toxic 0.9]` boosts to 1.08 yet reports 0.9 and 90 |
| Analyzer.NoThreshold | backend/analyzer.py:113-120 | unlike the service fold, an `insult` at 0.3 counts: severity 30 where the service gives 0 |
| Analyzer.CleanIsDetected | backend/analyzer.py:106-142 | a `clean` label at 0.9 is a detected category: `[clean 0.9, insult 0.2]` is `mild`, 20, "Message contains: clean." |
| RewriterService.Unquote | backend/app/services/rewriter_service.py:65-66 | one pair of surrounding double quotes is removed; a lone `"` becomes empty; other text is unchanged |
| RewriterService.DropPrefix | backend/app/services/rewriter_service.py:61-63 | a prefix that does not lead the text, ignoring case, leaves it unchanged; otherwise the text gets no longer |
| RewriterService.RemovePrefixes | backend/app/services/rewriter_service.py:60-63 | the prefix loop tries each of the four prefixes once, in list order |
| RewriterService.Rewrite | backend/app/services/rewriter_service.py:18-72 | `rewrite` returns the rewrite defined from the text and the model's reply |
| RewriterService.BlankTextIsEmpty | backend/app/services/rewriter_service.py:19-20 | blank text gives "" without consulting the model |
| RewriterService.FailureFallsBack | backend/app/services/rewriter_service.py:54-72 | a model call that raises, or a missing or empty answer, gives the fixed fallback sentence |
| RewriterService.PostProcessNoLonger | backend/app/services/rewriter_service.py:57-66 | the clean-up never makes the answer longer than the stripped answer |
| RewriterService.PlainAnswerIsStripped | backend/app/services/rewriter_service.py:57-68 | an answer with no known prefix and no quotes comes back stripped and otherwise unchanged |
| RewriterService.PrefixIgnoresCase | backend/app/services/rewriter_service.py:61-63 | "OUTPUT:a" loses the prefix "Output:": the match ignores case |
| RewriterService.PrefixMustLead | backend/app/services/rewriter_service.py:61-63 | a prefix in the middle of the answer is kept |
| RewriterService.PrefixesTriedOnce | backend/app/services/rewriter_service.py:60-63 | the four prefixes are each tried once in list order: an answer led by "Input:" alone loses only that prefix and the whitespace after it, even when "Output:" follows |
| RewriterService.LoneQuote | backend/app/services/rewriter_service.py:65-66 | a lone double quote is cleaned to the empty text |
| Routes.AnalyzeMessage | backend/app/api/routes.py:12-37 | the route analyses, decides (updating the service's ledger), rewrites when the action is not allow, and returns the response |
| Routes.HandlerContract | backend/app/api/routes.py:21-36 | analysis runs before the decision; a rewrite runs last and exists iff the action is not allow; the response carries the analysis and the decision unchanged |
| Routes.BlankMessageAllowed | backend/app/api/routes.py:21-36 | a blank message is clean, allowed, not rewritten and not recorded |
| Routes.ClassifierFailureAllowed | backend/app/api/routes.py:21-36 | a classifier failure is analysed as `error` and then allowed, not rewritten and not recorded |
| Routes.SevereMessageRewritten | backend/app/api/routes.py:21-36 | `[neutral 0.1, toxic 0.85]` is severe, blocked with an alert, recorded once, and rewritten |
| Routes.TablesDiffer | backend/app/services/decision_engine.py:21-32 | severity 75 is banded `toxic` yet draws `block_and_alert`; 70 is `toxic` and draws `block_and_rewrite` |
| MainApp.App.constructor | backend/main.py:27-28 | the server starts with neither model loaded |
| MainApp.App.LoadModels | backend/main.py:31-41 | the analyzer is loaded first; a load failure stops loading and leaves the remaining slots unset |
| MainApp.App.AnalyzeMessage | backend/main.py:56-91 | the handler answers 503 until both models are loaded, otherwise analyses, decides with the module engine, rewrites when the action is not allow, and returns the response |
| MainApp.NotLoadedIsUnavailable | backend/main.py:62-63 | while a model slot is empty the answer is 503 "Models are still loading..." and the ledger is untouched |
| MainApp.HandlerContract | backend/main.py:65-91 | analysis then decision; a rewrite exists iff the action is not allow; it is the rewrite model's answer, or the original text when the model raises |
| MainApp.ClassifierFailureBlocked | backend/main.py:65-83 | with the legacy engine standing in for `backend/decision_engine.py`, the handler fails closed: a failed analysis is `block_and_alert` with the system-error reason, gets a rewrite, and records nothing |
| MainApp.BlankMessageAllowed | backend/main.py:65-91 | a blank message is clean, allowed, not rewritten and not recorded |

## Left out

- Remote and local model calls (Hugging Face inference, the transformers pipeline, Google GenAI) are function parameters. Their outputs are not modelled, and neither is the prompt text or generation settings sent to the rewrite model.
- Service constructors that create API clients, logging, `print`, environment and settings loading, CORS and other FastAPI plumbing are I/O and are not modelled.
- `datetime.now()` is a `Timestamp` parameter of every operation that records an offence or stamps a response; the ISO rendering of the timestamp is not modelled. The source reads the clock twice per request, once for the offence record and once for the response; each handler uses one clock reading for both, so the model does not capture the two readings differing.
- Scores are exact reals, not IEEE doubles, so `int(p * 100)` can differ by one from the source. The double nearest 0.7 lies just below 0.7: its exact product with 100 is 69.99999999999999555..., which the model truncates to 69, while the double product rounds to 70.0 and gives 70, the `block_and_rewrite` edge of the 20/40/70 table. The other way round, the exact 0.29 gives 29 in the model, while the double product is 28.999999999999996 and gives 28.
- Normalizer.Severity: the service layer's `AnalysisResult.severity` is a float field, but the value stored is always a whole number (0.0 on the blank and error paths, otherwise `int(toxic_score * 100)`), so it is modelled as `int`.
- Lowering for the case-insensitive prefix match is ASCII only; Unicode case folding is not modelled.
- Concurrent requests and the shared mutable ledger under concurrency are not modelled; each handler call runs to completion.
- The `lru_cache` singletons of `backend/app/api/deps.py` are not modelled: the route receives the decision service as a parameter.
- Routes.AnalyzeMessage: the HTTP 500 path of the route is not modelled. Every modelled collaborator is total, so nothing in the model can raise there.
- An explicit JSON `null` for `user_id` is not modelled; an omitted `user_id` defaults to "anonymous".
- `backend/rewriter.py` (the `MessageRewriter` the single-file server loads) is not part of this model; the server's `rewrite_message` is a parameter that returns `None` when it raises.
- `backend/decision_engine.py`, which the single-file server imports, is not part of this model. The module-level engine of `backend/legacy/decision_engine.py` stands in for it.
- Analyzer.AnalyzerReport: `classify` returns the label scores of the single input, the `results[0]` of `backend/analyzer.py:44`. That index is outside the `try`, so a pipeline returning an empty list would raise into the handler; this case is not modelled.
- Analyzer.FirstPass: the maximum-score label and the boosted toxic score of the first pass are computed but never used by the result, as in the source.
- Severity 70-79 is banded `toxic`, but 71-79 already draws `block_and_alert` under the code's 20/40/70 action table; the model follows the code (`Routes.TablesDiffer`).
- The service route allows an `error` analysis (fail open), as written (`Routes.ClassifierFailureAllowed`). With the legacy engine standing in for `backend/decision_engine.py`, the single-file server's handler blocks it (fail closed, `MainApp.ClassifierFailureBlocked`); whether the engine the server really imports does the same is not settled by this model.

=== FILE: analyzer.dfy ===
/** The local-pipeline `ToxicityAnalyzer.analyze_text` served by the older
    entry point. Its first loop (running maximum and a boosted `toxic_score`)
    feeds nothing that is returned; the second loop takes the largest score of
    every label other than `neutral` and `clean`, with no 0.5 threshold, and
    lists the detected categories for the explanation. */
module Analyzer {
  import opened Types
  import opened Text
  import opened Normalizer

  const ErrorExplanation := "Error processing message."
  const KnownToxicLabels := ["toxic", "severe_toxic", "threat", "insult", "identity_hate", "obscene"]

  /** The state of the first loop: `max_score`, `max_label`, `toxic_score`. */
  datatype FirstPassState = FirstPassState(maxScore: real, maxLabel: string, toxicScore: real)

  function FirstPassStep(st: FirstPassState, item: Item): FirstPassState {
    var (maxScore, maxLabel) := if item.1 > st.maxScore then (item.1, item.0) else (st.maxScore, st.maxLabel);
    var toxicScore :=
      if item.0 == "toxic" then item.1
      else if item.0 == "severe_toxic" then Max(st.toxicScore, item.1 * 1.2)
      else if item.0 == "neutral" then st.toxicScore
      else if item.1 > 0.5 then Max(st.toxicScore, item.1)
      else st.toxicScore;
    FirstPassState(maxScore, maxLabel, toxicScore)
  }

  /** The first loop's final state. */
  function FirstPassOf(s: ClassifierOutput): FirstPassState
    decreases |s|
  {
    if s == [] then FirstPassState(0.0, "neutral", 0.0)
    else FirstPassStep(FirstPassOf(s[..|s| - 1]), s[|s| - 1])
  }

  /** Whether the second loop takes an entry's score into `final_toxic_prob`. */
  predicate Counted(tag: string) {
    tag != "neutral" && (tag in KnownToxicLabels || tag !in ["neutral", "clean"])
  }

  /** `final_toxic_prob`: 0.0 raised to the score of each counted entry. */
  function FinalToxicProb(s: ClassifierOutput): real
    decreases |s|
  {
    if s == [] then 0.0
    else
      var prev := FinalToxicProb(s[..|s| - 1]);
      if Counted(s[|s| - 1].0) then Max(prev, s[|s| - 1].1) else prev
  }

  /** `detected_categories`: the labels other than `neutral` scoring above 0.5, in input order. */
  function DetectedCategories(s: ClassifierOutput): seq<string>
    decreases |s|
  {
    if s == [] then []
    else
      var prev := DetectedCategories(s[..|s| - 1]);
      var x := s[|s| - 1];
      if x.0 != "neutral" && x.1 > 0.5 then prev + [x.0] else prev
  }

  /** The explanation: the detected categories when the severity is 10 or
      more and there are any, generic toxic content when there are none, safe
      below 10. */
  function Explanation(severity: int, categories: seq<string>): string {
    if severity >= 10 then
      if categories != [] then "Message contains: " + Join(categories, ", ") + "."
      else ToxicExplanation
    else SafeExplanation
  }

  /** What `analyze_text(text)` returns; `classify` is the loaded pipeline,
      `None` when it raised. */
  function AnalyzerReport(text: string, classify: string -> Option<ClassifierOutput>): AnalysisDict {
    if IsBlank(text) then AnalysisDict(Clean, 0, 0.0, EmptyExplanation)
    else
      match classify(text)
      case None => AnalysisDict(Error, 0, 0.0, ErrorExplanation)
      case Some(scores) =>
        var p := FinalToxicProb(scores);
        var severity := Severity(p);
        AnalysisDict(Categorize(severity), severity, p, Explanation(severity, DetectedCategories(scores)))
  }

  /** The first loop of `analyze_text`. */
  method FirstPass(scores: ClassifierOutput) returns (maxScore: real, maxLabel: string, toxicScore: real)
    ensures FirstPassState(maxScore, maxLabel, toxicScore) == FirstPassOf(scores)
  {
    maxScore, maxLabel, toxicScore := 0.0, "neutral", 0.0;
    for i := 0 to |scores|
      invariant FirstPassState(maxScore, maxLabel, toxicScore) == FirstPassOf(scores[..i])
    {
      var (tag, score) := scores[i];
      if score > maxScore {
        maxScore, maxLabel := score, tag;
      }
      if tag == "toxic" {
        toxicScore := score;
      } else if tag == "severe_toxic" {
        toxicScore := Max(toxicScore, score * 1.2);
      } else if tag == "neutral" {
      } else if score > 0.5 {
        toxicScore := Max(toxicScore, score);
      }
      assert scores[..i + 1][..i] == scores[..i];
    }
    assert scores[..|scores|] == scores;
  }

  /** The second loop of `analyze_text`. */
  method SecondPass(scores: ClassifierOutput) returns (finalToxicProb: real, detected: seq<string>)
    ensures finalToxicProb == FinalToxicProb(scores)
    ensures detected == DetectedCategories(scores)
  {
    finalToxicProb, detected := 0.0, [];
    for i := 0 to |scores|
      invariant finalToxicProb == FinalToxicProb(scores[..i])
      invariant detected == DetectedCategories(scores[..i])
    {
      var (tag, score) := scores[i];
      if tag != "neutral" {
        if score > 0.5 {
          detected := detected + [tag];
        }
        if tag in KnownToxicLabels {
          finalToxicProb := Max(finalToxicProb, score);
        } else if tag !in ["neutral", "clean"] {
          finalToxicProb := Max(finalToxicProb, score);
        }
      }
      assert scores[..i + 1][..i] == scores[..i];
    }
    assert scores[..|scores|] == scores;
  }

  /** `analyze_text`. The first loop runs but what it computes is dropped. */
  method AnalyzeText(text: string, classify: string -> Option<ClassifierOutput>) returns (result: AnalysisDict)
    ensures result == AnalyzerReport(text, classify)
  {
    if IsBlank(text) {
      return AnalysisDict(Clean, 0, 0.0, EmptyExplanation);
    }
    var reply := classify(text);
    if reply.None? {
      return AnalysisDict(Error, 0, 0.0, ErrorExplanation);
    }
    var scores := reply.value;
    var _, _, _ := FirstPass(scores);
    var finalToxicProb, detected := SecondPass(scores);
    var severityScore := Severity(finalToxicProb);
    var userExplanation := SafeExplanation;
    if severityScore >= 10 {
      if detected != [] {
        userExplanation := "Message contains: " + Join(detected, ", ") + ".";
      } else {
        userExplanation := ToxicExplanation;
      }
    }
    var category := Categorize(severityScore);
    result := AnalysisDict(category, severityScore, finalToxicProb, userExplanation);
  }

  /** The first loop keeps the earliest entry with the largest score: the
      running maximum bounds every score, and it is 0.0 under the label
      `neutral` when no score is positive, otherwise the entry where the
      maximum is first reached. */
  lemma {:induction false} FirstPassMaximum(s: ClassifierOutput)
    ensures FirstPassOf(s).maxScore >= 0.0
    ensures forall i :: 0 <= i < |s| ==> s[i].1 <= FirstPassOf(s).maxScore
    ensures (forall i :: 0 <= i < |s| ==> s[i].1 <= 0.0) ==>
      FirstPassOf(s).maxScore == 0.0 && FirstPassOf(s).maxLabel == "neutral"
    ensures (exists i :: 0 <= i < |s| && s[i].1 > 0.0) ==>
      exists i :: 0 <= i < |s| && s[i] == (FirstPassOf(s).maxLabel, FirstPassOf(s).maxScore)
        && forall j :: 0 <= j < i ==> s[j].1 < FirstPassOf(s).maxScore
  {
    if s != [] {
      var init, x := s[..|s| - 1], s[|s| - 1];
      FirstPassMaximum(init);
      var st0 := FirstPassOf(init);
      assert forall j :: 0 <= j < |init| ==> s[j] == init[j];
      if x.1 > st0.maxScore {
        assert s[|s| - 1] == (FirstPassOf(s).maxLabel, FirstPassOf(s).maxScore);
      } else if exists i :: 0 <= i < |s| && s[i].1 > 0.0 {
        var i :| 0 <= i < |s| && s[i].1 > 0.0;
        if i < |init| {
          assert init[i].1 > 0.0;
        } else {
          assert st0.maxScore > 0.0;
        }
        assert exists i :: 0 <= i < |init| && init[i].1 > 0.0;
      }
    }
  }

  /** An entry that can raise the first loop's `toxic_score` once the last
      `toxic` entry has set it: any `severe_toxic`, and any other label except
      `neutral` above 0.5. */
  predicate Raises(item: Item) {
    item.0 == "severe_toxic" || (item.0 != "toxic" && item.0 != "neutral" && item.1 > 0.5)
  }

  /** What such an entry raises `toxic_score` to: its score, boosted by 1.2 for `severe_toxic`. */
  function Contribution(item: Item): real {
    if item.0 == "severe_toxic" then item.1 * 1.2 else item.1
  }

  /** Reference description of the first loop's `toxic_score`: the largest of
      the last `toxic` score (0.0 when there is none) and the contributions of
      the raising entries after it. */
  ghost predicate IsFirstPassToxicScore(s: ClassifierOutput, r: real) {
    var k := LastToxic(s);
    var base := if k >= 0 then s[k].1 else 0.0;
    && r >= base
    && (forall j :: k < j < |s| && Raises(s[j]) ==> r >= Contribution(s[j]))
    && (r == base || exists j :: k < j < |s| && Raises(s[j]) && r == Contribution(s[j]))
  }

  /** The first loop's `toxic_score` meets the reference description. */
  lemma {:induction false} FirstPassToxicScore(s: ClassifierOutput)
    ensures IsFirstPassToxicScore(s, FirstPassOf(s).toxicScore)
  {
    if s != [] {
      var init, x := s[..|s| - 1], s[|s| - 1];
      FirstPassToxicScore(init);
      if x.0 != "toxic" {
        var k := LastToxic(init);
        assert LastToxic(s) == k;
        assert forall j :: 0 <= j < |init| ==> s[j] == init[j];
        var r0 := FirstPassOf(init).toxicScore;
        var base := if k >= 0 then s[k].1 else 0.0;
        if r0 != base {
          var j :| k < j < |init| && Raises(init[j]) && r0 == Contribution(init[j]);
          assert Raises(s[j]) && r0 == Contribution(s[j]);
        }
      }
    }
  }

  /** The two label tests of the second loop amount to: neither `neutral` nor `clean`. */
  lemma CountedIff(tag: string)
    ensures Counted(tag) <==> tag != "neutral" && tag != "clean"
  {
    assert "clean" !in KnownToxicLabels;
  }

  /** `final_toxic_prob` is the maximum of 0.0 and the scores of the counted
      entries: at least each of them, and equal to one of them unless 0.0. */
  lemma {:induction false} FinalToxicProbIsMax(s: ClassifierOutput)
    ensures FinalToxicProb(s) >= 0.0
    ensures forall i :: 0 <= i < |s| && Counted(s[i].0) ==> s[i].1 <= FinalToxicProb(s)
    ensures FinalToxicProb(s) == 0.0 || exists i :: 0 <= i < |s| && Counted(s[i].0) && FinalToxicProb(s) == s[i].1
  {
    if s != [] {
      var init := s[..|s| - 1];
      FinalToxicProbIsMax(init);
      assert forall i :: 0 <= i < |init| ==> s[i] == init[i];
      var prev := FinalToxicProb(init);
      if FinalToxicProb(s) != 0.0 && FinalToxicProb(s) == prev {
        var i :| 0 <= i < |init| && Counted(init[i].0) && prev == init[i].1;
        assert Counted(s[i].0) && FinalToxicProb(s) == s[i].1;
      }
    }
  }

  /** Being a maximum, `final_toxic_prob` does not depend on the order of the entries. */
  lemma {:induction false} FinalToxicProbOrderFree(s: ClassifierOutput, t: ClassifierOutput)
    requires multiset(s) == multiset(t)
    ensures FinalToxicProb(s) == FinalToxicProb(t)
  {
    FinalToxicProbBelow(s, t);
    FinalToxicProbBelow(t, s);
  }

  /** Every entry of `t` also in `s` means `t`'s maximum is at most `s`'s. */
  lemma {:induction false} FinalToxicProbBelow(s: ClassifierOutput, t: ClassifierOutput)
    requires multiset(s) == multiset(t)
    ensures FinalToxicProb(t) <= FinalToxicProb(s)
  {
    FinalToxicProbIsMax(s);
    FinalToxicProbIsMax(t);
    if FinalToxicProb(t) != 0.0 {
      var j :| 0 <= j < |t| && Counted(t[j].0) && FinalToxicProb(t) == t[j].1;
      assert t[j] in multiset(t);
      assert t[j] in s;
      var i :| 0 <= i < |s| && s[i] == t[j];
    }
  }

  /** The detected categories of a concatenation are those of each part, in
      order: the list keeps input order. */
  lemma {:induction false} DetectedCategoriesAppend(a: ClassifierOutput, b: ClassifierOutput)
    ensures DetectedCategories(a + b) == DetectedCategories(a) + DetectedCategories(b)
    decreases |b|
  {
    if b == [] {
      assert a + b == a;
    } else {
      var b0 := b[..|b| - 1];
      assert (a + b)[..|a + b| - 1] == a + b0;
      DetectedCategoriesAppend(a, b0);
    }
  }

  /** A label is detected exactly when some entry carries it, it is not
      `neutral`, and that entry scores above 0.5; `clean` can be detected. */
  lemma {:induction false} DetectedCategoriesMembers(s: ClassifierOutput, tag: string)
    ensures tag in DetectedCategories(s) <==>
      tag != "neutral" && exists i :: 0 <= i < |s| && s[i].0 == tag && s[i].1 > 0.5
  {
    if s != [] {
      var init := s[..|s| - 1];
      DetectedCategoriesMembers(init, tag);
      assert forall i :: 0 <= i < |init| ==> s[i] == init[i];
      if tag in DetectedCategories(s) && tag !in DetectedCategories(init) {
        assert s[|s| - 1].0 == tag;
      }
    }
  }

  /** With probabilities as scores the confidence is a probability and the
      severity lies in [0,100]. */
  lemma {:induction false} ReportInRange(text: string, classify: string -> Option<ClassifierOutput>)
    requires !IsBlank(text) && classify(text).Some? && AllProbabilities(classify(text).value)
    ensures var r := AnalyzerReport(text, classify);
      IsProbability(r.confidence) && 0 <= r.severity <= 100 && r.category == Categorize(r.severity)
  {
    var s := classify(text).value;
    FinalToxicProbIsMax(s);
    if FinalToxicProb(s) != 0.0 {
      var i :| 0 <= i < |s| && Counted(s[i].0) && FinalToxicProb(s) == s[i].1;
    }
  }

  /** The three explanations of a scored message: safe below severity 10;
      otherwise the list of detected labels when some non-`neutral` label
      scores above 0.5, and generic toxic content when none does. */
  lemma ExplanationCases(text: string, classify: string -> Option<ClassifierOutput>)
    requires !IsBlank(text) && classify(text).Some?
    ensures var r := AnalyzerReport(text, classify);
      var s := classify(text).value;
      var detects := exists i :: 0 <= i < |s| && s[i].0 != "neutral" && s[i].1 > 0.5;
      && (r.explanation == SafeExplanation <==> r.severity < 10)
      && (r.explanation == ToxicExplanation <==> r.severity >= 10 && !detects)
      && (r.severity >= 10 && detects ==>
            r.explanation == "Message contains: " + Join(DetectedCategories(s), ", ") + ".")
  {
    var s := classify(text).value;
    var listed := "Message contains: " + Join(DetectedCategories(s), ", ") + ".";
    assert listed[8] != SafeExplanation[8];
    assert listed[16] != ToxicExplanation[16];
    if exists i :: 0 <= i < |s| && s[i].0 != "neutral" && s[i].1 > 0.5 {
      var i :| 0 <= i < |s| && s[i].0 != "neutral" && s[i].1 > 0.5;
      DetectedCategoriesMembers(s, s[i].0);
    } else if DetectedCategories(s) != [] {
      DetectedCategoriesMembers(s, DetectedCategories(s)[0]);
    }
  }

  /** Blank text: clean, severity 0, confidence 0.0, "Message is empty.",
      without consulting the pipeline. */
  lemma BlankTextIsEmpty(text: string, classify: string -> Option<ClassifierOutput>, other: string -> Option<ClassifierOutput>)
    requires forall i :: 0 <= i < |text| ==> IsSpace(text[i])
    ensures AnalyzerReport(text, classify) == AnalyzerReport(text, other) == AnalysisDict(Clean, 0, 0.0, EmptyExplanation)
  {
    BlankIffAllSpace(text);
  }

  /** A pipeline call that raised: `error`, 0, 0.0, "Error processing message.". */
  lemma ClassifierFailureIsError(text: string, classify: string -> Option<ClassifierOutput>)
    requires !IsBlank(text) && classify(text) == None
    ensures AnalyzerReport(text, classify) == AnalysisDict(Error, 0, 0.0, ErrorExplanation)
  {
  }

  /** A `severe_toxic` entry at 0.9 would be boosted to 1.08 by the first
      loop, yet the report's confidence stays 0.9 and its severity 90. */
  lemma BoostIsDropped(text: string, classify: string -> Option<ClassifierOutput>)
    requires !IsBlank(text) && classify(text) == Some([("severe_toxic", 0.9)])
    ensures FirstPassOf([("severe_toxic", 0.9)]).toxicScore == 1.08
    ensures AnalyzerReport(text, classify).confidence == 0.9
    ensures AnalyzerReport(text, classify).severity == 90
  {
    assert [("severe_toxic", 0.9)][..0] == [];
  }

  /** No 0.5 threshold: an `insult` at 0.3 gives severity 30 here, where the
      service layer's fold ignores it and gives 0. */
  lemma NoThreshold(text: string, classify: string -> Option<ClassifierOutput>)
    requires !IsBlank(text) && classify(text) == Some([("insult", 0.3)])
    ensures AnalyzerReport(text, classify).severity == 30
    ensures ToxicScore([("insult", 0.3)]) == 0.0
  {
    assert [("insult", 0.3)][..0] == [];
  }

  /** The two passes over `[clean 0.9, insult 0.2]`: `clean` is detected but
      not counted, `insult` is counted but not detected. */
  lemma CleanExamplePasses()
    ensures FinalToxicProb([("clean", 0.9), ("insult", 0.2)]) == 0.2
    ensures DetectedCategories([("clean", 0.9), ("insult", 0.2)]) == ["clean"]
  {
    var s: ClassifierOutput := [("clean", 0.9), ("insult", 0.2)];
    assert s[..1] == [("clean", 0.9)];
    assert s[..1][..0] == [];
    CountedIff("clean");
    CountedIff("insult");
    assert FinalToxicProb(s[..1]) == 0.0;
  }

  /** A `clean` label above 0.5 is reported as a detected category once other
      labels raise the severity to 10 or more. */
  lemma CleanIsDetected(text: string, classify: string -> Option<ClassifierOutput>)
    requires !IsBlank(text) && classify(text) == Some([("clean", 0.9), ("insult", 0.2)])
    ensures AnalyzerReport(text, classify) == AnalysisDict(Mild, 20, 0.2, "Message contains: clean.")
  {
    CleanExamplePasses();
    assert Severity(0.2) == 20;
    assert Join(["clean"], ", ") == "clean";
    assert "Message contains: " + "clean" + "." == "Message contains: clean.";
  }
}

=== FILE: decision_engine.dfy ===
/** The service-layer `DecisionService`: severity to action through the
    20/40/70 table, then escalation of a repeat offender's
    `block_and_rewrite` to `block_and_alert`. */
module DecisionEngine {
  import opened Types
  import opened Text
  import opened Ledger

  const CleanReason := "Message is clean."
  const MildReason := "Mild toxicity detected. User warned."
  const ToxicReason := "Toxic content detected. Message blocked and rewrite suggested."
  const SevereReason := "Severe toxicity detected. Message blocked and admin alerted."
  const EscalationSuffix := " (Escalated due to repeated offences)"

  /** The severity from which an offence is recorded. */
  const OffenceThreshold := 40

  /** More offences than this, counting the current one, escalate. */
  const EscalationLimit := 3

  datatype Decision = Decision(action: Action, reason: string)

  /** The 20/40/70 table: below 20 allow, [20,40) warn, [40,70] block and
      rewrite, above 70 block and alert. */
  function BaseDecision(severity: int): Decision {
    if severity < 20 then Decision(Allow, CleanReason)
    else if severity < 40 then Decision(Warn, MildReason)
    else if severity <= 70 then Decision(BlockAndRewrite, ToxicReason)
    else Decision(BlockAndAlert, SevereReason)
  }

  /** Escalation given the user's count after the current offence was recorded. */
  function Escalate(d: Decision, count: nat): Decision {
    if count > EscalationLimit && d.action == BlockAndRewrite then
      Decision(BlockAndAlert, d.reason + EscalationSuffix)
    else
      d
  }

  /** What `decide` returns for `severity` when the user had `priorCount`
      offences before the call. */
  function Outcome(severity: int, priorCount: nat): Decision {
    var base := BaseDecision(severity);
    if severity >= OffenceThreshold then Escalate(base, priorCount + 1) else base
  }

  /** The ledger after `decide`: one entry for the user when the severity is
      40 or more, nothing otherwise. */
  function RecordsAfter(records: Records, userId: string, severity: int, now: Timestamp): Records {
    if severity >= OffenceThreshold then Register(records, userId, now) else records
  }

  predicate IsEscalated(d: Decision) {
    d.action == BlockAndAlert && EndsWith(d.reason, EscalationSuffix)
  }

  /** No reason of the base table carries the escalation suffix. */
  lemma BaseReasonsUnescalated(severity: int)
    ensures !EndsWith(BaseDecision(severity).reason, EscalationSuffix)
  {
    var r := BaseDecision(severity).reason;
    if |EscalationSuffix| <= |r| {
      assert r[|r| - 1] != EscalationSuffix[|EscalationSuffix| - 1];
    }
  }

  /** Every severity has exactly one base action, and a higher severity never
      gets a milder one. */
  lemma BaseDecisionMonotone(a: int, b: int)
    requires a <= b
    ensures ActionRank(BaseDecision(a).action) <= ActionRank(BaseDecision(b).action)
  {
  }

  /** The result is escalated exactly when the count after recording exceeds
      three and the table gave `block_and_rewrite`. */
  lemma {:induction false} EscalationIff(severity: int, priorCount: nat)
    ensures IsEscalated(Outcome(severity, priorCount))
        <==> severity >= OffenceThreshold && priorCount + 1 > EscalationLimit
             && BaseDecision(severity).action == BlockAndRewrite
  {
    var base := BaseDecision(severity);
    BaseReasonsUnescalated(severity);
    var d := Outcome(severity, priorCount);
    if severity >= OffenceThreshold && priorCount + 1 > EscalationLimit && base.action == BlockAndRewrite {
      assert d.reason == base.reason + EscalationSuffix;
      assert d.reason[|d.reason| - |EscalationSuffix|..] == EscalationSuffix;
    } else {
      assert d == base;
    }
  }

  /** Escalation never lowers an action, never touches allow or warn, and
      leaves block_and_alert as it is. */
  lemma EscalationNeverDowngrades(severity: int, priorCount: nat)
    ensures ActionRank(Outcome(severity, priorCount).action) >= ActionRank(BaseDecision(severity).action)
    ensures BaseDecision(severity).action != BlockAndRewrite ==> Outcome(severity, priorCount) == BaseDecision(severity)
    ensures severity < OffenceThreshold ==> Outcome(severity, priorCount) == BaseDecision(severity)
  {
  }

  /** A longer history never softens the action. */
  lemma OutcomeMonotoneInHistory(severity: int, p: nat, q: nat)
    requires p <= q
    ensures ActionRank(Outcome(severity, p).action) <= ActionRank(Outcome(severity, q).action)
  {
  }

  /** The label is never looked at: a failed analysis (severity 0) is allowed
      and leaves the ledger alone. */
  lemma ErrorAnalysisAllowed(records: Records, userId: string, priorCount: nat, now: Timestamp)
    ensures Outcome(AnalysisResult(Error, 0.0, 0).severity, priorCount) == Decision(Allow, CleanReason)
    ensures RecordsAfter(records, userId, AnalysisResult(Error, 0.0, 0).severity, now) == records
  {
  }

  class DecisionService {
    /** `_offence_records`. */
    var offenceRecords: Records

    constructor ()
      ensures offenceRecords == map[]
    {
      offenceRecords := map[];
    }

    /** `decide`: the action and reason for `analysis`, recording the offence
        first when the severity is 40 or more. */
    method Decide(analysis: AnalysisResult, userId: string, now: Timestamp) returns (action: Action, reason: string)
      modifies this
      ensures Decision(action, reason) == Outcome(analysis.severity, Count(old(offenceRecords), userId))
      ensures offenceRecords == RecordsAfter(old(offenceRecords), userId, analysis.severity, now)
    {
      var severity := analysis.severity;
      action, reason := Allow, "Safe message.";

      if severity < 20 {
        action, reason := Allow, CleanReason;
      } else if 20 <= severity < 40 {
        action, reason := Warn, MildReason;
      } else if 40 <= severity <= 70 {
        action, reason := BlockAndRewrite, ToxicReason;
      } else {
        action, reason := BlockAndAlert, SevereReason;
      }

      if severity >= 40 {
        RegisterOffence(userId, now);
        var offenceCount := GetOffenceCount(userId);
        CountAfterRegister(old(offenceRecords), userId, userId, now);
        if offenceCount > 3 && action == BlockAndRewrite {
          action := BlockAndAlert;
          reason := reason + EscalationSuffix;
        }
      }
    }

    /** `_register_offence`. */
    method RegisterOffence(userId: string, now: Timestamp)
      modifies this
      ensures offenceRecords == Register(old(offenceRecords), userId, now)
    {
      if userId !in offenceRecords {
        offenceRecords := offenceRecords[userId := []];
      }
      offenceRecords := offenceRecords[userId := offenceRecords[userId] + [now]];
    }

    /** `_get_offence_count`. */
    method GetOffenceCount(userId: string) returns (count: nat)
      ensures count == Count(offenceRecords, userId)
    {
      count := if userId in offenceRecords then |offenceRecords[userId]| else 0;
    }
  }

  /** On a fresh service, four offences of one user in the [40,70] band give
      `block_and_rewrite` three times and then the escalated `block_and_alert`. */
  method FourthOffenceEscalates(analysis: AnalysisResult, userId: string, t1: Timestamp, t2: Timestamp, t3: Timestamp, t4: Timestamp)
    returns (first: Decision, second: Decision, third: Decision, fourth: Decision)
    requires 40 <= analysis.severity <= 70
    ensures first == second == third == Decision(BlockAndRewrite, ToxicReason)
    ensures fourth == Decision(BlockAndAlert, ToxicReason + EscalationSuffix)
  {
    var service := new DecisionService();
    var a, r := service.Decide(analysis, userId, t1);
    first := Decision(a, r);
    a, r := service.Decide(analysis, userId, t2);
    second := Decision(a, r);
    a, r := service.Decide(analysis, userId, t3);
    third := Decision(a, r);
    a, r := service.Decide(analysis, userId, t4);
    fourth := Decision(a, r);
  }
}

=== FILE: ledger.dfy ===
/** The offence ledger both decision engines keep: user id to the ordered
    list of offence timestamps, only ever appended to. */
module Ledger {
  import opened Types

  type Records = map<string, seq<Timestamp>>

  /** `len(records.get(user_id, []))`. */
  function Count(records: Records, userId: string): nat {
    if userId in records then |records[userId]| else 0
  }

  /** The ledger after one offence of `userId` at `now`: an empty list is made
      for an unseen user, then exactly one entry is appended to that user's
      list; every other user's list is untouched. */
  function Register(records: Records, userId: string, now: Timestamp): (r: Records)
    ensures r.Keys == records.Keys + {userId}
    ensures userId in records ==> r[userId] == records[userId] + [now]
    ensures userId !in records ==> r[userId] == [now]
    ensures forall u :: u in records && u != userId ==> r[u] == records[u]
  {
    var entries := if userId in records then records[userId] else [];
    records[userId := entries + [now]]
  }

  /** A count read right after a registration sees that registration, and
      nobody else's count moves. */
  lemma {:induction false} CountAfterRegister(records: Records, userId: string, other: string, now: Timestamp)
    ensures Count(Register(records, userId, now), userId) == Count(records, userId) + 1
    ensures other != userId ==> Count(Register(records, userId, now), other) == Count(records, other)
  {
  }

  /** An unseen user has no offences. */
  lemma CountUnseen(userId: string)
    ensures Count(map[], userId) == 0
  {
  }

  /** Registering never removes or reorders what was there: each user's old
      list is a prefix of the new one. */
  lemma RegisterAppendOnly(records: Records, userId: string, now: Timestamp)
    ensures forall u :: u in records ==>
      u in Register(records, userId, now) && records[u] <= Register(records, userId, now)[u]
  {
  }
}

=== FILE: legacy_analyzer.dfy ===
/** The older Inference-API `ToxicityAnalyzer.analyze_text`: the same label
    fold as the service layer, returned as a dictionary with a one-line
    explanation that turns at severity 10. */
module LegacyAnalyzer {
  import opened Types
  import opened Text
  import opened Normalizer
  import ToxicityService

  const ApiErrorExplanation := "Error processing message (API)."

  /** The explanation for a severity: toxic from 10 on, safe below. */
  function Explanation(severity: int): string {
    if severity >= 10 then ToxicExplanation else SafeExplanation
  }

  /** What `analyze_text(text)` returns. */
  function AnalysisDictOf(text: string, classify: string -> Option<ClassifierOutput>): AnalysisDict {
    if IsBlank(text) then AnalysisDict(Clean, 0, 0.0, EmptyExplanation)
    else
      match classify(text)
      case None => AnalysisDict(Error, 0, 0.0, ApiErrorExplanation)
      case Some(scores) =>
        var p := ToxicScore(scores);
        var severity := Severity(p);
        AnalysisDict(Categorize(severity), severity, p, Explanation(severity))
  }

  /** `analyze_text`. */
  method AnalyzeText(text: string, classify: string -> Option<ClassifierOutput>) returns (result: AnalysisDict)
    ensures result == AnalysisDictOf(text, classify)
  {
    if IsBlank(text) {
      return AnalysisDict(Clean, 0, 0.0, EmptyExplanation);
    }
    var reply := classify(text);
    if reply.None? {
      return AnalysisDict(Error, 0, 0.0, ApiErrorExplanation);
    }
    var toxicScore := FoldToxicScore(reply.value);
    var severityScore := Severity(toxicScore);
    var userExplanation := SafeExplanation;
    if severityScore >= 10 {
      userExplanation := ToxicExplanation;
    }
    var category := Categorize(severityScore);
    result := AnalysisDict(category, severityScore, toxicScore, userExplanation);
  }

  /** Blank text: clean, severity 0, confidence 0.0, "Message is empty.",
      without consulting the classifier. */
  lemma BlankTextIsEmpty(text: string, classify: string -> Option<ClassifierOutput>, other: string -> Option<ClassifierOutput>)
    requires forall i :: 0 <= i < |text| ==> IsSpace(text[i])
    ensures AnalysisDictOf(text, classify) == AnalysisDictOf(text, other) == AnalysisDict(Clean, 0, 0.0, EmptyExplanation)
  {
    BlankIffAllSpace(text);
  }

  /** A classifier call that raised: `error`, severity 0, confidence 0.0. */
  lemma ClassifierFailureIsError(text: string, classify: string -> Option<ClassifierOutput>)
    requires !IsBlank(text) && classify(text) == None
    ensures AnalysisDictOf(text, classify) == AnalysisDict(Error, 0, 0.0, ApiErrorExplanation)
  {
  }

  /** Label, severity and confidence agree with the service layer's label,
      severity and score on every input; the confidence is the fold's score. */
  lemma AgreesWithService(text: string, classify: string -> Option<ClassifierOutput>)
    ensures var r := AnalysisDictOf(text, classify);
      var a := ToxicityService.AnalysisOf(text, classify);
      r.category == a.category && r.severity == a.severity && r.confidence == a.score
  {
  }

  /** The explanation says "toxic content" exactly when the severity is 10 or
      more, so a message can be called toxic while its category is `clean`. */
  lemma ExplanationThreshold(text: string, classify: string -> Option<ClassifierOutput>)
    requires !IsBlank(text) && classify(text).Some?
    ensures var r := AnalysisDictOf(text, classify);
      (r.explanation == ToxicExplanation <==> r.severity >= 10)
      && (r.explanation == SafeExplanation <==> r.severity < 10)
  {
  }
}

=== FILE: legacy_decision_engine.dfy ===
/** The older module-level decision engine: the same 20/40/70 table and
    escalation as the service, plus a fail-closed answer for a failed
    analysis. The module's global `OFFENCE_RECORDS` is the field of one
    `DecisionModule` object. */
module LegacyDecisionEngine {
  import opened Types
  import opened Ledger
  import opened DecisionEngine

  const SystemErrorReason := "System Error: Unable to analyze toxicity (Check API Key)."

  /** The analysis dictionary as `decide_action` reads it: either key may be missing. */
  datatype Report = Report(category: Option<Category>, severity: Option<int>)

  /** The keys of an analyzer's dictionary, both present. */
  function ReportOf(analysis: AnalysisDict): Report {
    Report(Some(analysis.category), Some(analysis.severity))
  }

  /** What `decide_action` returns when the user had `priorCount` offences. */
  function LegacyOutcome(report: Report, priorCount: nat): Decision {
    if report.category == Some(Error) then Decision(BlockAndAlert, SystemErrorReason)
    else Outcome(report.severity.GetOr(0), priorCount)
  }

  /** `OFFENCE_RECORDS` after `decide_action`. */
  function LegacyRecordsAfter(records: Records, report: Report, userId: string, now: Timestamp): Records {
    if report.category == Some(Error) then records
    else RecordsAfter(records, userId, report.severity.GetOr(0), now)
  }

  /** Fail closed: a failed analysis is answered with `block_and_alert` and the
      system-error reason, whatever its severity, and no offence is recorded. */
  lemma ErrorFailsClosed(report: Report, priorCount: nat, records: Records, userId: string, now: Timestamp)
    requires report.category == Some(Error)
    ensures LegacyOutcome(report, priorCount) == Decision(BlockAndAlert, SystemErrorReason)
    ensures LegacyRecordsAfter(records, report, userId, now) == records
  {
  }

  /** A missing severity counts as 0: allow, and no offence is recorded. */
  lemma MissingSeverityAllows(category: Option<Category>, priorCount: nat, records: Records, userId: string, now: Timestamp)
    requires category != Some(Error)
    ensures LegacyOutcome(Report(category, None), priorCount) == Decision(Allow, CleanReason)
    ensures LegacyRecordsAfter(records, Report(category, None), userId, now) == records
  {
  }

  /** The two engines differ only on a failed analysis: there the service
      allows and this engine blocks and alerts. */
  lemma EnginesDifferOnlyOnError(report: Report, priorCount: nat)
    ensures report.category != Some(Error) ==> LegacyOutcome(report, priorCount) == Outcome(report.severity.GetOr(0), priorCount)
    ensures report == Report(Some(Error), Some(0)) ==>
      LegacyOutcome(report, priorCount).action == BlockAndAlert && Outcome(0, priorCount).action == Allow
  {
  }

  class DecisionModule {
    /** `OFFENCE_RECORDS`. */
    var offenceRecords: Records

    constructor ()
      ensures offenceRecords == map[]
    {
      offenceRecords := map[];
    }

    /** `decide_action`. */
    method DecideAction(report: Report, userId: string, now: Timestamp) returns (decision: Decision)
      modifies this
      ensures decision == LegacyOutcome(report, Count(old(offenceRecords), userId))
      ensures offenceRecords == LegacyRecordsAfter(old(offenceRecords), report, userId, now)
    {
      var severity := report.severity.GetOr(0);
      var action, reason := Allow, "Safe message.";

      if report.category == Some(Error) {
        return Decision(BlockAndAlert, SystemErrorReason);
      }

      if severity < 20 {
        action, reason := Allow, CleanReason;
      } else if 20 <= severity < 40 {
        action, reason := Warn, MildReason;
      } else if 40 <= severity <= 70 {
        action, reason := BlockAndRewrite, ToxicReason;
      } else {
        action, reason := BlockAndAlert, SevereReason;
      }

      if severity >= 40 {
        RegisterOffence(userId, now);
        var offenceCount := GetOffenceCount(userId);
        CountAfterRegister(old(offenceRecords), userId, userId, now);
        if offenceCount > 3 && action == BlockAndRewrite {
          action := BlockAndAlert;
          reason := reason + EscalationSuffix;
        }
      }
      decision := Decision(action, reason);
    }

    /** `register_offence`. */
    method RegisterOffence(userId: string, now: Timestamp)
      modifies this
      ensures offenceRecords == Register(old(offenceRecords), userId, now)
    {
      if userId !in offenceRecords {
        offenceRecords := offenceRecords[userId := []];
      }
      offenceRecords := offenceRecords[userId := offenceRecords[userId] + [now]];
    }

    /** `get_offence_count`. */
    method GetOffenceCount(userId: string) returns (count: nat)
      ensures count == Count(offenceRecords, userId)
    {
      count := if userId in offenceRecords then |offenceRecords[userId]| else 0;
    }
  }
}

=== FILE: main_app.dfy ===
/** The older single-file server's `/analyze` handler: refuse while the
    models are not loaded, otherwise analyse with the local pipeline, decide
    with a module-level engine, and rewrite when the action calls for it,
    falling back to the original text when the rewrite model raises. The
    server imports `backend/decision_engine.py`, which is not part of this
    model; the engine of `backend/legacy/decision_engine.py` stands in for it. */
module MainApp {
  import opened Types
  import opened Text
  import opened Ledger
  import opened DecisionEngine
  import opened LegacyDecisionEngine
  import Analyzer

  const LoadingDetail := "Models are still loading..."

  /** `AnalysisResponse`. */
  datatype AnalysisResponse = AnalysisResponse(
    analysis: AnalysisDict, action: Action, reason: string, rewrite: Option<string>, timestamp: Timestamp)

  /** The handler's answer: a response, or the HTTP error it raises. */
  datatype HttpResult = Ok(response: AnalysisResponse) | HttpError(status: int, detail: string)

  /** The handler's answer, the ledger after it, and the stages it ran. */
  datatype Handled = Handled(result: HttpResult, records: Records, trace: seq<Stage>)

  /** `rewriter.rewrite_message(text)`, or the text itself when that raises. */
  function RewriteOrOriginal(rewriteMessage: string -> Option<string>, text: string): string {
    var attempt := rewriteMessage(text);
    if attempt.Some? then attempt.value else text
  }

  /** What `analyze_message` does, given the loaded models (`None` while
      not loaded), the ledger before the call and the clock. */
  function Handle(classify: Option<string -> Option<ClassifierOutput>>, rewriteMessage: Option<string -> Option<string>>,
                  request: AnalysisRequest, records: Records, now: Timestamp): Handled
  {
    if classify.None? || rewriteMessage.None? then
      Handled(HttpError(503, LoadingDetail), records, [])
    else
      var analysis := Analyzer.AnalyzerReport(request.message, classify.value);
      var report := ReportOf(analysis);
      var decision := LegacyOutcome(report, Count(records, UserIdOf(request)));
      var rewrite := if NeedsRewrite(decision.action)
        then Some(RewriteOrOriginal(rewriteMessage.value, request.message)) else None;
      Handled(
        Ok(AnalysisResponse(analysis, decision.action, decision.reason, rewrite, now)),
        LegacyRecordsAfter(records, report, UserIdOf(request), now),
        Trace(NeedsRewrite(decision.action)))
  }

  /** The server process: the two global model slots and the decision
      module whose `OFFENCE_RECORDS` it shares. */
  class App {
    var analyzer: Option<string -> Option<ClassifierOutput>>
    var rewriter: Option<string -> Option<string>>
    const decisions: DecisionModule

    constructor (decisions: DecisionModule)
      ensures analyzer == None && rewriter == None && this.decisions == decisions
    {
      analyzer, rewriter := None, None;
      this.decisions := decisions;
    }

    /** `load_models`: the analyzer is loaded first; a failure (`None`) stops
        the loading and leaves the remaining slots as they were. */
    method LoadModels(loadedAnalyzer: Option<string -> Option<ClassifierOutput>>, loadedRewriter: Option<string -> Option<string>>)
      modifies this`analyzer, this`rewriter
      ensures analyzer == if loadedAnalyzer.Some? then loadedAnalyzer else old(analyzer)
      ensures rewriter == if loadedAnalyzer.Some? && loadedRewriter.Some? then loadedRewriter else old(rewriter)
    {
      if loadedAnalyzer.Some? {
        analyzer := loadedAnalyzer;
        if loadedRewriter.Some? {
          rewriter := loadedRewriter;
        }
      }
    }

    /** `analyze_message`. */
    method AnalyzeMessage(request: AnalysisRequest, now: Timestamp) returns (result: HttpResult, trace: seq<Stage>)
      modifies decisions
      ensures Handled(result, decisions.offenceRecords, trace)
           == Handle(analyzer, rewriter, request, old(decisions.offenceRecords), now)
    {
      if analyzer.None? || rewriter.None? {
        return HttpError(503, LoadingDetail), [];
      }
      var text := request.message;
      var analysisResult := Analyzer.AnalyzeText(text, analyzer.value);
      trace := [AnalyzeStage];
      var decision := decisions.DecideAction(ReportOf(analysisResult), UserIdOf(request), now);
      trace := trace + [DecideStage];
      var action, reason := decision.action, decision.reason;
      var rewrittenText: Option<string> := None;
      if NeedsRewrite(action) {
        var attempt := rewriter.value(text);
        rewrittenText := Some(if attempt.Some? then attempt.value else text);
        trace := trace + [RewriteStage];
      }
      result := Ok(AnalysisResponse(analysisResult, action, reason, rewrittenText, now));
    }
  }

  /** Until both models are loaded the handler answers 503 and does nothing else. */
  lemma NotLoadedIsUnavailable(classify: Option<string -> Option<ClassifierOutput>>, rewriteMessage: Option<string -> Option<string>>,
                               request: AnalysisRequest, records: Records, now: Timestamp)
    requires classify.None? || rewriteMessage.None?
    ensures Handle(classify, rewriteMessage, request, records, now) == Handled(HttpError(503, LoadingDetail), records, [])
  {
  }

  /** Once loaded, the analysis runs first and the decision second; a rewrite
      comes last and is there exactly when the action is not allow. The
      rewrite is the rewrite model's answer, or the original message when
      the model raises. The response
      carries the analysis and the decision unchanged. */
  lemma HandlerContract(classify: string -> Option<ClassifierOutput>, rewriteMessage: string -> Option<string>,
                        request: AnalysisRequest, records: Records, now: Timestamp)
    ensures var h := Handle(Some(classify), Some(rewriteMessage), request, records, now);
      var analysis := Analyzer.AnalyzerReport(request.message, classify);
      && h.result.Ok?
      && h.trace[..2] == [AnalyzeStage, DecideStage]
      && (RewriteStage in h.trace <==> h.result.response.action != Allow)
      && (h.result.response.rewrite.Some? <==> h.result.response.action != Allow)
      && (h.result.response.rewrite.Some? && rewriteMessage(request.message) == None ==>
            h.result.response.rewrite.value == request.message)
      && (h.result.response.rewrite.Some? && rewriteMessage(request.message).Some? ==>
            h.result.response.rewrite.value == rewriteMessage(request.message).value)
      && h.result.response.analysis == analysis
      && Decision(h.result.response.action, h.result.response.reason)
         == LegacyOutcome(ReportOf(analysis), Count(records, UserIdOf(request)))
  {
  }

  /** With the stand-in engine, this handler fails closed: a failed analysis is blocked with an alert
      and the system-error reason, a rewrite is attempted, and no offence is
      recorded. */
  lemma ClassifierFailureBlocked(classify: string -> Option<ClassifierOutput>, rewriteMessage: string -> Option<string>,
                                 request: AnalysisRequest, records: Records, now: Timestamp)
    requires !IsBlank(request.message) && classify(request.message) == None
    ensures var h := Handle(Some(classify), Some(rewriteMessage), request, records, now);
      && h.result == Ok(AnalysisResponse(
           Analyzer.AnalyzerReport(request.message, classify), BlockAndAlert, SystemErrorReason,
           Some(RewriteOrOriginal(rewriteMessage, request.message)), now))
      && h.records == records
  {
    Analyzer.ClassifierFailureIsError(request.message, classify);
    var report := ReportOf(Analyzer.AnalyzerReport(request.message, classify));
    ErrorFailsClosed(report, Count(records, UserIdOf(request)), records, UserIdOf(request), now);
  }

  /** A blank message is clean and allowed, with no rewrite and no ledger entry. */
  lemma BlankMessageAllowed(classify: string -> Option<ClassifierOutput>, rewriteMessage: string -> Option<string>,
                            request: AnalysisRequest, records: Records, now: Timestamp)
    requires forall i :: 0 <= i < |request.message| ==> IsSpace(request.message[i])
    ensures var h := Handle(Some(classify), Some(rewriteMessage), request, records, now);
      && h.result.Ok?
      && h.result.response.analysis.category == Clean
      && h.result.response.action == Allow
      && h.result.response.rewrite == None
      && h.records == records
  {
    BlankIffAllSpace(request.message);
  }
}

=== FILE: normalizer.dfy ===
/** The score normaliser shared by the service-layer and legacy analyzers:
    the label fold over a classifier's output, `int(p * 100)`, and the
    20/40/80 banding of a severity into a category. */
module Normalizer {
  import opened Types

  function Max(a: real, b: real): real {
    if a >= b then a else b
  }

  predicate IsProbability(x: real) {
    0.0 <= x <= 1.0
  }

  predicate AllProbabilities(s: ClassifierOutput) {
    forall i :: 0 <= i < |s| ==> IsProbability(s[i].1)
  }

  /** An entry that is neither `toxic` nor `neutral` and whose score clears 0.5. */
  predicate IsEvidence(item: Item) {
    item.0 != "toxic" && item.0 != "neutral" && item.1 > 0.5
  }

  /** One turn of the loop: `toxic` assigns, `neutral` is skipped, any other
      label raises the running score to its own when that is above 0.5. */
  function Step(acc: real, item: Item): real {
    if item.0 == "toxic" then item.1
    else if item.0 == "neutral" then acc
    else if item.1 > 0.5 then Max(acc, item.1)
    else acc
  }

  /** The loop's final `toxic_score`: `Step` folded from the left, starting at 0.0. */
  function ToxicScore(s: ClassifierOutput): real
    decreases |s|
  {
    if s == [] then 0.0 else Step(ToxicScore(s[..|s| - 1]), s[|s| - 1])
  }

  /** The index of the last `toxic` entry, or -1 when there is none. */
  function LastToxic(s: ClassifierOutput): (k: int)
    ensures -1 <= k < |s|
    ensures k >= 0 ==> s[k].0 == "toxic"
    ensures forall j :: k < j < |s| ==> s[j].0 != "toxic"
  {
    if s == [] then -1
    else if s[|s| - 1].0 == "toxic" then |s| - 1
    else LastToxic(s[..|s| - 1])
  }

  /** Reference description of the fold: the result is the largest of the last
      `toxic` score (0.0 when there is none) and of the evidence scores that
      come after it. */
  ghost predicate IsFoldResult(s: ClassifierOutput, r: real) {
    var k := LastToxic(s);
    var base := if k >= 0 then s[k].1 else 0.0;
    && r >= base
    && (forall j :: k < j < |s| && IsEvidence(s[j]) ==> r >= s[j].1)
    && (r == base || exists j :: k < j < |s| && IsEvidence(s[j]) && r == s[j].1)
  }

  /** The fold meets the reference description. */
  lemma {:induction false} ToxicScoreIsFoldResult(s: ClassifierOutput)
    ensures IsFoldResult(s, ToxicScore(s))
  {
    if s != [] {
      var init, x := s[..|s| - 1], s[|s| - 1];
      ToxicScoreIsFoldResult(init);
      if x.0 != "toxic" {
        var k := LastToxic(init);
        assert LastToxic(s) == k;
        assert forall j :: 0 <= j < |init| ==> s[j] == init[j];
        var r0 := ToxicScore(init);
        var base := if k >= 0 then s[k].1 else 0.0;
        if r0 != base {
          var j :| k < j < |init| && IsEvidence(init[j]) && r0 == init[j].1;
          assert IsEvidence(s[j]) && r0 == s[j].1;
        }
      }
    }
  }

  /** The entries the fold can react to: `toxic` entries and evidence. */
  function Relevant(s: ClassifierOutput): (r: ClassifierOutput)
    ensures |r| <= |s|
    decreases |s|
  {
    if s == [] then []
    else
      var x := s[|s| - 1];
      if x.0 == "toxic" || IsEvidence(x) then Relevant(s[..|s| - 1]) + [x]
      else Relevant(s[..|s| - 1])
  }

  /** `neutral` entries, and entries other than `toxic` scoring 0.5 or less,
      never change the result: dropping all of them gives the same score. */
  lemma {:induction false} IgnoredEntriesDoNotMatter(s: ClassifierOutput)
    ensures ToxicScore(Relevant(s)) == ToxicScore(s)
  {
    if s != [] {
      var init, x := s[..|s| - 1], s[|s| - 1];
      IgnoredEntriesDoNotMatter(init);
      if x.0 == "toxic" || IsEvidence(x) {
        var r := Relevant(init) + [x];
        assert r[..|r| - 1] == Relevant(init);
      }
    }
  }

  /** With every score a probability the fold's result is a probability too. */
  lemma {:induction false} ToxicScoreBounds(s: ClassifierOutput)
    requires AllProbabilities(s)
    ensures IsProbability(ToxicScore(s))
  {
    if s != [] {
      var init := s[..|s| - 1];
      assert forall i :: 0 <= i < |init| ==> init[i] == s[i];
      ToxicScoreBounds(init);
    }
  }

  /** The fold depends on order: a later `toxic` entry overrides, and can lower,
      a higher score reached earlier. */
  lemma ToxicScoreOrderMatters()
    ensures ToxicScore([("insult", 0.9), ("toxic", 0.2)]) == 0.2
    ensures ToxicScore([("toxic", 0.2), ("insult", 0.9)]) == 0.9
  {
    assert [("insult", 0.9), ("toxic", 0.2)][..1] == [("insult", 0.9)];
    assert [("toxic", 0.2), ("insult", 0.9)][..1] == [("toxic", 0.2)];
  }

  /** The loop at the heart of both analyzers, run over the classifier output. */
  method FoldToxicScore(scores: ClassifierOutput) returns (toxicScore: real)
    ensures toxicScore == ToxicScore(scores)
  {
    toxicScore := 0.0;
    for i := 0 to |scores|
      invariant toxicScore == ToxicScore(scores[..i])
    {
      var (tag, score) := scores[i];
      if tag == "toxic" {
        toxicScore := score;
      } else if tag == "neutral" {
      } else if score > 0.5 {
        toxicScore := Max(toxicScore, score);
      }
      assert scores[..i + 1][..i] == scores[..i];
    }
    assert scores[..|scores|] == scores;
  }

  /** Python's `int(p * 100)`, which truncates toward zero. */
  function Severity(p: real): (severity: int)
    ensures 0.0 <= p ==> 0 <= severity && severity as real <= p * 100.0 < severity as real + 1.0
    ensures p <= 0.0 ==> severity <= 0 && p * 100.0 <= severity as real && (severity as real) - 1.0 < p * 100.0
    ensures IsProbability(p) ==> 0 <= severity <= 100
  {
    var x := p * 100.0;
    if x >= 0.0 then x.Floor else -((-x).Floor)
  }

  /** The 20/40/80 table that names a severity. */
  function Categorize(severity: int): Category {
    if severity < 20 then Clean
    else if severity < 40 then Mild
    else if severity < 80 then Toxic
    else Severe
  }

  function CategoryRank(c: Category): nat {
    match c
    case Clean => 0
    case Mild => 1
    case Toxic => 2
    case Severe => 3
    case Error => 4
  }

  /** A higher severity never gets a milder category, and banding never yields `Error`. */
  lemma CategorizeMonotone(a: int, b: int)
    requires a <= b
    ensures CategoryRank(Categorize(a)) <= CategoryRank(Categorize(b))
    ensures Categorize(a) != Error
  {
  }

  /** Each boundary belongs to the band above it. */
  lemma CategorizeBoundaries()
    ensures Categorize(19) == Clean && Categorize(20) == Mild
    ensures Categorize(39) == Mild && Categorize(40) == Toxic
    ensures Categorize(79) == Toxic && Categorize(80) == Severe && Categorize(100) == Severe
  {
  }
}

=== FILE: rewriter_service.dfy ===
/** The service-layer `RewriterService.rewrite`: the guards and fallbacks
    around the generative model, and the clean-up of its answer (strip, drop
    known prefixes case-insensitively in list order, drop one pair of
    surrounding double quotes). The model is the parameter `generate`. */
module RewriterService {
  import opened Types
  import opened Text

  const Fallback := "I would prefer not to say that."
  const Prefixes := ["Rewritten:", "Polite version:", "Output:", "Input:"]

  /** What the model call gives back: it raised, or it answered with a
      `response.text` that may be missing. */
  datatype Reply = Raised | Answered(text: Option<string>)

  /** `s.startswith('"') and s.endswith('"')`. */
  predicate IsQuoted(s: string) {
    |s| >= 1 && s[0] == '"' && s[|s| - 1] == '"'
  }

  /** `s[1:-1]` when `s` is quoted: one pair of quotes goes, and a lone `"` becomes empty. */
  function Unquote(s: string): (r: string)
    ensures !IsQuoted(s) ==> r == s
    ensures IsQuoted(s) && |s| >= 2 ==> s == "\"" + r + "\""
    ensures IsQuoted(s) && |s| == 1 ==> r == ""
  {
    if IsQuoted(s) then (if |s| >= 2 then s[1..|s| - 1] else "") else s
  }

  /** One turn of the prefix loop: drop `p` and re-strip when `s` starts with it, ignoring case. */
  function DropPrefix(s: string, p: string): (r: string)
    ensures |r| <= |s|
    ensures !StartsWithIgnoreCase(s, p) ==> r == s
  {
    if StartsWithIgnoreCase(s, p) then Strip(s[|p|..]) else s
  }

  /** The prefix loop: each prefix is tried once, in list order. */
  function DropPrefixes(s: string, prefixes: seq<string>): (r: string)
    ensures |r| <= |s|
    decreases |prefixes|
  {
    if prefixes == [] then s else DropPrefixes(DropPrefix(s, prefixes[0]), prefixes[1..])
  }

  /** The clean-up applied to a non-empty answer. */
  function PostProcess(answer: string): string {
    Unquote(DropPrefixes(Strip(answer), Prefixes))
  }

  /** What `rewrite(text)` returns. */
  function RewriteOf(text: string, generate: string -> Reply): string {
    if IsBlank(text) then ""
    else
      match generate(text)
      case Raised => Fallback
      case Answered(None) => Fallback
      case Answered(Some(answer)) => if answer == "" then Fallback else PostProcess(answer)
  }

  /** The prefix loop of `rewrite`, reassigning the text. */
  method RemovePrefixes(text: string) returns (rewritten: string)
    ensures rewritten == DropPrefixes(text, Prefixes)
  {
    rewritten := text;
    var prefixes := Prefixes;
    for i := 0 to |prefixes|
      invariant DropPrefixes(rewritten, prefixes[i..]) == DropPrefixes(text, prefixes)
    {
      var p := prefixes[i];
      assert prefixes[i..][1..] == prefixes[i + 1..];
      if StartsWithIgnoreCase(rewritten, p) {
        rewritten := Strip(rewritten[|p|..]);
      }
    }
  }

  /** `rewrite`. */
  method Rewrite(text: string, generate: string -> Reply) returns (result: string)
    ensures result == RewriteOf(text, generate)
  {
    if IsBlank(text) {
      return "";
    }
    var response := generate(text);
    if response.Raised? || response.text.None? || response.text.value == "" {
      return Fallback;
    }
    var answer := response.text.value;
    var rewritten := Strip(answer);
    rewritten := RemovePrefixes(rewritten);
    if IsQuoted(rewritten) {
      rewritten := if |rewritten| >= 2 then rewritten[1..|rewritten| - 1] else "";
    }
    assert rewritten == PostProcess(answer);
    result := rewritten;
  }

  /** Blank text gives "" without consulting the model. */
  lemma BlankTextIsEmpty(text: string, generate: string -> Reply, other: string -> Reply)
    requires forall i :: 0 <= i < |text| ==> IsSpace(text[i])
    ensures RewriteOf(text, generate) == RewriteOf(text, other) == ""
  {
    BlankIffAllSpace(text);
  }

  /** A failed call or an empty answer gives the fixed fallback: `rewrite` never fails. */
  lemma FailureFallsBack(text: string, generate: string -> Reply)
    requires !IsBlank(text)
    requires generate(text) == Raised || generate(text) == Answered(None) || generate(text) == Answered(Some(""))
    ensures RewriteOf(text, generate) == Fallback
  {
  }

  /** The clean-up never makes the answer longer than the stripped answer. */
  lemma {:induction false} PostProcessNoLonger(answer: string)
    ensures |PostProcess(answer)| <= |Strip(answer)|
  {
  }

  /** An answer with no prefix and no quotes comes back stripped and otherwise unchanged. */
  lemma {:induction false} PlainAnswerIsStripped(answer: string)
    requires forall p :: p in Prefixes ==> !StartsWithIgnoreCase(Strip(answer), p)
    requires !IsQuoted(Strip(answer))
    ensures PostProcess(answer) == Strip(answer)
  {
    var s := Strip(answer);
    assert Prefixes[0] in Prefixes && Prefixes[1] in Prefixes && Prefixes[2] in Prefixes && Prefixes[3] in Prefixes;
    assert DropPrefixes(s, Prefixes[3..]) == s;
    assert DropPrefixes(s, Prefixes[2..]) == s;
    assert DropPrefixes(s, Prefixes[1..]) == s;
  }

  /** A prefix is matched whatever the case of the answer. */
  lemma PrefixIgnoresCase()
    ensures DropPrefix("OUTPUT:a", "Output:") == "a"
  {
    var s := "OUTPUT:a";
    assert s[..7] == "OUTPUT:";
    assert Lower("OUTPUT:") == "output:";
    assert Lower("Output:") == "output:";
    assert s[7..] == "a";
    StripUnpadded("a");
  }

  /** A prefix that does not start the answer leaves it as it is. */
  lemma PrefixMustLead()
    ensures DropPrefix("a Output:", "Output:") == "a Output:"
  {
    FirstCharMismatch("a Output:", "Output:");
  }

  /** A prefix that does not match is passed over. */
  lemma DropPrefixesSkip(s: string, prefixes: seq<string>, i: nat)
    requires i < |prefixes| && !StartsWithIgnoreCase(s, prefixes[i])
    ensures DropPrefixes(s, prefixes[i..]) == DropPrefixes(s, prefixes[i + 1..])
  {
    assert prefixes[i..][1..] == prefixes[i + 1..];
  }

  /** Each prefix is tried once, in list order, and "Input:" is tried last:
      an answer that starts with "Input:" and with none of the other three
      loses that prefix and its following whitespace and nothing more, even
      when what is left starts with "Output:". */
  lemma PrefixesTriedOnce(s: string)
    requires forall i :: 0 <= i < 3 ==> !StartsWithIgnoreCase(s, Prefixes[i])
    requires StartsWithIgnoreCase(s, "Input:")
    ensures DropPrefixes(s, Prefixes) == Strip(s[6..])
  {
    assert Prefixes[0..] == Prefixes;
    DropPrefixesSkip(s, Prefixes, 0);
    DropPrefixesSkip(s, Prefixes, 1);
    DropPrefixesSkip(s, Prefixes, 2);
    assert Prefixes[3..] == ["Input:"];
    assert DropPrefixes(s, ["Input:"]) == DropPrefixes(Strip(s[6..]), []);
  }

  /** A lone double quote is cleaned to the empty text. */
  lemma LoneQuote()
    ensures Unquote("\"") == ""
  {
  }
}

=== FILE: routes.dfy ===
/** The service-layer `/analyze` handler: analyse, then decide, then rewrite
    when the action calls for it, and assemble the response. */
module Routes {
  import opened Types
  import opened Text
  import opened Normalizer
  import opened Ledger
  import opened DecisionEngine
  import ToxicityService
  import RewriterService

  /** `AnalysisResponse`. */
  datatype AnalysisResponse = AnalysisResponse(
    analysis: AnalysisResult, action: Action, reason: string, rewrite: Option<string>, timestamp: Timestamp)

  /** The handler's response, the ledger after it, and the stages it ran. */
  datatype Handled = Handled(response: AnalysisResponse, records: Records, trace: seq<Stage>)

  /** What `analyze_message` does, given the classifier, the rewrite model,
      the ledger before the call and the clock. */
  function Handle(request: AnalysisRequest, classify: string -> Option<ClassifierOutput>,
                  generate: string -> RewriterService.Reply, records: Records, now: Timestamp): Handled
  {
    var analysis := ToxicityService.AnalysisOf(request.message, classify);
    var decision := Outcome(analysis.severity, Count(records, UserIdOf(request)));
    var rewrite := if NeedsRewrite(decision.action)
      then Some(RewriterService.RewriteOf(request.message, generate)) else None;
    Handled(
      AnalysisResponse(analysis, decision.action, decision.reason, rewrite, now),
      RecordsAfter(records, UserIdOf(request), analysis.severity, now),
      Trace(NeedsRewrite(decision.action)))
  }

  /** `analyze_message`. */
  method AnalyzeMessage(request: AnalysisRequest, classify: string -> Option<ClassifierOutput>,
                        generate: string -> RewriterService.Reply, decisionService: DecisionService, now: Timestamp)
    returns (response: AnalysisResponse, trace: seq<Stage>)
    modifies decisionService
    ensures Handled(response, decisionService.offenceRecords, trace)
         == Handle(request, classify, generate, old(decisionService.offenceRecords), now)
  {
    var analysisResult := ToxicityService.Analyze(request.message, classify);
    trace := [AnalyzeStage];
    var action, reason := decisionService.Decide(analysisResult, UserIdOf(request), now);
    trace := trace + [DecideStage];
    var rewrittenText: Option<string> := None;
    if NeedsRewrite(action) {
      var r := RewriterService.Rewrite(request.message, generate);
      rewrittenText := Some(r);
      trace := trace + [RewriteStage];
    }
    response := AnalysisResponse(analysisResult, action, reason, rewrittenText, now);
  }

  /** The analysis runs first and the decision second; a rewrite, when there
      is one, comes last, and it is there exactly when the action is warn or
      one of the two blocks. The response carries the analysis and the
      decision unchanged. */
  lemma HandlerContract(request: AnalysisRequest, classify: string -> Option<ClassifierOutput>,
                        generate: string -> RewriterService.Reply, records: Records, now: Timestamp)
    ensures var h := Handle(request, classify, generate, records, now);
      && h.trace[..2] == [AnalyzeStage, DecideStage]
      && (RewriteStage in h.trace <==> h.response.action != Allow)
      && (h.response.rewrite.Some? <==> h.response.action != Allow)
      && (h.response.rewrite.Some? ==> h.response.rewrite.value == RewriterService.RewriteOf(request.message, generate))
      && h.response.analysis == ToxicityService.AnalysisOf(request.message, classify)
      && Decision(h.response.action, h.response.reason) == Outcome(h.response.analysis.severity, Count(records, UserIdOf(request)))
  {
  }

  /** A blank message is clean and allowed, with no rewrite and no ledger entry. */
  lemma BlankMessageAllowed(request: AnalysisRequest, classify: string -> Option<ClassifierOutput>,
                            generate: string -> RewriterService.Reply, records: Records, now: Timestamp)
    requires forall i :: 0 <= i < |request.message| ==> IsSpace(request.message[i])
    ensures var h := Handle(request, classify, generate, records, now);
      && h.response.analysis == AnalysisResult(Clean, 0.0, 0)
      && h.response.action == Allow
      && h.response.rewrite == None
      && h.records == records
  {
    BlankIffAllSpace(request.message);
  }

  /** A classifier failure is allowed here, not blocked: this handler does not fail closed. */
  lemma ClassifierFailureAllowed(request: AnalysisRequest, classify: string -> Option<ClassifierOutput>,
                                 generate: string -> RewriterService.Reply, records: Records, now: Timestamp)
    requires !IsBlank(request.message) && classify(request.message) == None
    ensures var h := Handle(request, classify, generate, records, now);
      && h.response.analysis.category == Error
      && h.response.action == Allow
      && h.response.rewrite == None
      && h.records == records
  {
    ToxicityService.ClassifierFailureIsError(request.message, classify);
    ErrorAnalysisAllowed(records, UserIdOf(request), Count(records, UserIdOf(request)), now);
  }

  /** The worked example: `[neutral 0.1, toxic 0.85]` is `severe`, blocked
      with an alert, recorded for the user, and rewritten. */
  lemma SevereMessageRewritten(request: AnalysisRequest, classify: string -> Option<ClassifierOutput>,
                               generate: string -> RewriterService.Reply, records: Records, now: Timestamp)
    requires !IsBlank(request.message) && classify(request.message) == Some([("neutral", 0.1), ("toxic", 0.85)])
    ensures var h := Handle(request, classify, generate, records, now);
      && h.response.analysis == AnalysisResult(Severe, 0.85, 85)
      && h.response.action == BlockAndAlert
      && h.response.rewrite == Some(RewriterService.RewriteOf(request.message, generate))
      && Count(h.records, UserIdOf(request)) == Count(records, UserIdOf(request)) + 1
  {
    ToxicityService.SevereExample(request.message, classify);
    CountAfterRegister(records, UserIdOf(request), UserIdOf(request), now);
  }

  /** The decision table and the analysis banding are distinct: severity 75
      is banded `toxic` yet already draws `block_and_alert`, while 70 is the
      last `block_and_rewrite`. */
  lemma TablesDiffer()
    ensures Categorize(75) == Toxic && BaseDecision(75).action == BlockAndAlert
    ensures Categorize(70) == Toxic && BaseDecision(70).action == BlockAndRewrite
  {
  }
}

=== FILE: text.dfy ===
/** The Python string operations the pipeline relies on: `str.strip()`,
    `str.lower()`, `str.startswith` and `", ".join`. */
module Text {

  /** Python's `str.isspace` for one character: the characters `str.strip()` removes. */
  predicate IsSpace(c: char) {
    || c == ' '
    || ('\t' <= c <= '\r')
    || ('\U{1C}' <= c <= '\U{1F}')
    || c == '\U{85}' || c == '\U{A0}' || c == '\U{1680}'
    || ('\U{2000}' <= c <= '\U{200A}')
    || c == '\U{2028}' || c == '\U{2029}' || c == '\U{202F}' || c == '\U{205F}' || c == '\U{3000}'
  }

  /** `s.lstrip()`: the suffix of `s` left once its leading whitespace is gone. */
  function TrimStart(s: string): (r: string)
    ensures |r| <= |s| && r == s[|s| - |r|..]
    ensures forall i :: 0 <= i < |s| - |r| ==> IsSpace(s[i])
    ensures r == [] || !IsSpace(r[0])
  {
    if s != [] && IsSpace(s[0]) then
      var r := TrimStart(s[1..]);
      assert forall i :: 1 <= i < |s| - |r| ==> s[i] == s[1..][i - 1];
      r
    else
      s
  }

  /** `s.rstrip()`: the prefix of `s` left once its trailing whitespace is gone. */
  function TrimEnd(s: string): (r: string)
    ensures |r| <= |s| && r == s[..|r|]
    ensures forall i :: |r| <= i < |s| ==> IsSpace(s[i])
    ensures r == [] || !IsSpace(r[|r| - 1])
  {
    if s != [] && IsSpace(s[|s| - 1]) then
      var r := TrimEnd(s[..|s| - 1]);
      assert forall i :: |r| <= i < |s| - 1 ==> s[i] == s[..|s| - 1][i];
      r
    else
      s
  }

  /** `s.strip()`: never longer than `s`, and neither end of it is whitespace. */
  function Strip(s: string): (r: string)
    ensures |r| <= |s|
    ensures r == [] || (!IsSpace(r[0]) && !IsSpace(r[|r| - 1]))
  {
    var t := TrimStart(s);
    var r := TrimEnd(t);
    assert r != [] ==> r[0] == t[0];
    r
  }

  /** `not s or not s.strip()`: the guard both services put in front of a remote call. */
  predicate IsBlank(s: string) {
    Strip(s) == []
  }

  /** A text is blank exactly when every one of its characters is whitespace. */
  lemma BlankIffAllSpace(s: string)
    ensures IsBlank(s) <==> forall i :: 0 <= i < |s| ==> IsSpace(s[i])
  {
    var t := TrimStart(s);
    if IsBlank(s) {
      assert TrimEnd(t) == [];
    }
  }

  /** A text with no whitespace at either end is its own strip. */
  lemma StripUnpadded(s: string)
    requires s == [] || (!IsSpace(s[0]) && !IsSpace(s[|s| - 1]))
    ensures Strip(s) == s
  {
    assert TrimStart(s) == s;
    assert TrimEnd(s) == s;
  }

  /** `str.lower()` on one character, for the ASCII letters. */
  function LowerChar(c: char): char {
    if 'A' <= c <= 'Z' then (c as int + 32) as char else c
  }

  /** `s.lower()`, character by character. */
  function Lower(s: string): (r: string)
    ensures |r| == |s|
    ensures forall i :: 0 <= i < |s| ==> r[i] == LowerChar(s[i])
  {
    seq(|s|, i requires 0 <= i < |s| => LowerChar(s[i]))
  }

  /** `s.lower().startswith(p.lower())`. */
  predicate StartsWithIgnoreCase(s: string, p: string) {
    |p| <= |s| && Lower(s[..|p|]) == Lower(p)
  }

  /** Texts whose first characters differ after lowering do not start alike. */
  lemma FirstCharMismatch(s: string, p: string)
    requires |s| >= 1 && |p| >= 1 && LowerChar(s[0]) != LowerChar(p[0])
    ensures !StartsWithIgnoreCase(s, p)
  {
    if |p| <= |s| {
      assert Lower(s[..|p|])[0] != Lower(p)[0];
    }
  }

  /** `s.endswith(p)`. */
  predicate EndsWith(s: string, p: string) {
    |p| <= |s| && s[|s| - |p|..] == p
  }

  /** `sep.join(parts)`. */
  function Join(parts: seq<string>, sep: string): string
    decreases |parts|
  {
    if parts == [] then ""
    else if |parts| == 1 then parts[0]
    else parts[0] + sep + Join(parts[1..], sep)
  }
}

=== FILE: toxicity_service.dfy ===
/** The service-layer `ToxicityService.analyze`: a blank-text short cut, a
    failed classifier call turned into an `error` result, then the label fold,
    `int(p * 100)` and the 20/40/80 banding. The remote classifier is the
    parameter `classify`; `None` stands for a call that raised. */
module ToxicityService {
  import opened Types
  import opened Text
  import opened Normalizer

  /** What `analyze(text)` returns. */
  function AnalysisOf(text: string, classify: string -> Option<ClassifierOutput>): AnalysisResult {
    if IsBlank(text) then AnalysisResult(Clean, 0.0, 0)
    else
      match classify(text)
      case None => AnalysisResult(Error, 0.0, 0)
      case Some(scores) =>
        var p := ToxicScore(scores);
        var severity := Severity(p);
        AnalysisResult(Categorize(severity), p, severity)
  }

  /** `analyze`. */
  method Analyze(text: string, classify: string -> Option<ClassifierOutput>) returns (result: AnalysisResult)
    ensures result == AnalysisOf(text, classify)
  {
    if IsBlank(text) {
      return AnalysisResult(Clean, 0.0, 0);
    }
    var reply := classify(text);
    if reply.None? {
      return AnalysisResult(Error, 0.0, 0);
    }
    var toxicScore := FoldToxicScore(reply.value);
    var severityScore := Severity(toxicScore);
    var category := Categorize(severityScore);
    result := AnalysisResult(category, toxicScore, severityScore);
  }

  /** Blank text is clean with score and severity 0, whatever the classifier
      would have said: the classifier is not consulted. */
  lemma BlankTextIsClean(text: string, classify: string -> Option<ClassifierOutput>, other: string -> Option<ClassifierOutput>)
    requires forall i :: 0 <= i < |text| ==> IsSpace(text[i])
    ensures AnalysisOf(text, classify) == AnalysisOf(text, other) == AnalysisResult(Clean, 0.0, 0)
  {
    BlankIffAllSpace(text);
  }

  /** A classifier call that raised gives the `error` result with score and severity 0. */
  lemma ClassifierFailureIsError(text: string, classify: string -> Option<ClassifierOutput>)
    requires !IsBlank(text) && classify(text) == None
    ensures AnalysisOf(text, classify) == AnalysisResult(Error, 0.0, 0)
  {
  }

  /** On a successful call with probabilities as scores, the score is a
      probability, the severity lies in [0,100] and is `int(score * 100)`,
      and the category is the 20/40/80 band of the severity. */
  lemma {:induction false} AnalysisInRange(text: string, classify: string -> Option<ClassifierOutput>)
    requires !IsBlank(text) && classify(text).Some? && AllProbabilities(classify(text).value)
    ensures var r := AnalysisOf(text, classify);
      && IsProbability(r.score)
      && 0 <= r.severity <= 100
      && r.severity as real <= r.score * 100.0 < r.severity as real + 1.0
      && r.category == Categorize(r.severity) != Error
  {
    ToxicScoreBounds(classify(text).value);
  }

  /** An empty classifier output gives score 0.0 and the `clean` category. */
  lemma EmptyOutputIsClean(text: string, classify: string -> Option<ClassifierOutput>)
    requires !IsBlank(text) && classify(text) == Some([])
    ensures AnalysisOf(text, classify) == AnalysisResult(Clean, 0.0, 0)
  {
  }

  /** The worked example: `[neutral 0.1, toxic 0.85]` is severity 85, `severe`. */
  lemma SevereExample(text: string, classify: string -> Option<ClassifierOutput>)
    requires !IsBlank(text) && classify(text) == Some([("neutral", 0.1), ("toxic", 0.85)])
    ensures AnalysisOf(text, classify) == AnalysisResult(Severe, 0.85, 85)
  {
    var s := [("neutral", 0.1), ("toxic", 0.85)];
    assert s[..1] == [("neutral", 0.1)];
    assert ToxicScore(s) == 0.85;
  }
}

=== FILE: types.dfy ===
/** Values shared by every stage of the moderation pipeline. */
module Types {

  datatype Option<T> = None | Some(value: T) {
    /** Python's `d.get(key, default)` once the lookup has been made. */
    function GetOr(default: T): T {
      match this
      case Some(v) => v
      case None => default
    }
  }

  /** The label an analyzer attaches to a message. */
  datatype Category = Clean | Mild | Toxic | Severe | Error

  /** The enforcement decision returned to the caller. */
  datatype Action = Allow | Warn | BlockAndRewrite | BlockAndAlert

  /** The moment `datetime.now()` would return; the clock itself is a parameter. */
  type Timestamp = nat

  /** One entry of a classifier's output: a label and its probability. */
  type Item = (string, real)

  /** The whole output of a classifier for one text. */
  type ClassifierOutput = seq<Item>

  /** `AnalysisResult` of the service layer; `category` is the source's `label` field. */
  datatype AnalysisResult = AnalysisResult(category: Category, score: real, severity: int)

  /** The dictionary the older analyzers return. */
  datatype AnalysisDict = AnalysisDict(category: Category, severity: int, confidence: real, explanation: string)

  /** Ordinal position of an action: a larger rank is a harsher action. */
  function ActionRank(a: Action): nat {
    match a
    case Allow => 0
    case Warn => 1
    case BlockAndRewrite => 2
    case BlockAndAlert => 3
  }

  /** The actions after which both orchestrators ask for a rewrite. */
  predicate NeedsRewrite(a: Action) {
    a == BlockAndRewrite || a == Warn || a == BlockAndAlert
  }

  /** The collaborators an `/analyze` handler calls, in the order it calls them. */
  datatype Stage = AnalyzeStage | DecideStage | RewriteStage

  /** The stages a handler runs: the analysis, the decision, then the rewrite
      when there is one. */
  function Trace(rewrote: bool): (t: seq<Stage>)
    ensures |t| >= 2 && t[..2] == [AnalyzeStage, DecideStage]
    ensures RewriteStage in t <==> rewrote
  {
    if rewrote then [AnalyzeStage] + [DecideStage] + [RewriteStage] else [AnalyzeStage] + [DecideStage]
  }

  /** Explanations both analyzers give. */
  const EmptyExplanation := "Message is empty."
  const ToxicExplanation := "Message contains toxic content."
  const SafeExplanation := "Message appears safe."

  /** The `/analyze` request body (`AnalysisRequest` in the service layer,
      `AnalyzeRequest` in the single-file server, with the same fields); an
      omitted `user_id` is `None`. */
  datatype AnalysisRequest = AnalysisRequest(message: string, userId: Option<string>)

  /** `user_id`, which defaults to "anonymous". */
  function UserIdOf(request: AnalysisRequest): string {
    request.userId.GetOr("anonymous")
  }
}
